=== FILE: README.md ===
# C++ teaching examples: generic algorithms, a vector-like buffer, a move-only pointer, an observer subject and type traits

This project models, in Dafny, the five pieces of a C++ teaching repository that have behaviour
of their own:

- **Function templates** (`templates/tests_templates.cpp`). `maximum` comes as the template
  and as the `const char*` overload that uses `strcmp`. `Exercise::find`, `Exercise::find_if`
  and `Exercise::zero` are also here. An iterator is an index into a sequence, and the index
  `|s|` stands for `end()` (module `Algorithms`).
- **The hand-rolled `Vector`** (`move-semantics/vectorlike.cpp`). It is an `int` buffer with a
  size. The model covers its three constructors, indexing, `==` and `!=`, and the value type
  `X` with `operator+` and `operator==`. The heap buffer is modelled by the sequence of its
  elements (module `VectorLike`).
- **`Explain::unique_ptr<T>`** (`move-semantics/move_semantics_2.cpp`). It is a move-only
  owner of one heap object, and `create_gadget` hands out numbered gadgets (module
  `UniquePtr`). The module has three parts:
  - A `World` holds the set of live heap object ids and the `unique_ptr` objects, keyed by
    their own addresses ("slots"). `new` never reuses an id, so an id names one object.
    A pointer is modelled by the id of the object it points to. It also keeps a log of every `delete` of a non-null
    pointer.
  - Each constructor, the move constructor, the move assignment and the destructor is a
    function on worlds.
  - The invariant `Valid` says four things: every held pointer is live, no two `unique_ptr`
    objects hold the same non-null pointer, no object is deleted twice, and every id
    was handed out by `new`. Every program that makes no copy keeps `Valid`
    (`RunKeepsValid`), provided it gives each pointer from `new` to at most one `unique_ptr`. The compiler enforces only the first
    condition. The second is the caller's duty under `explicit unique_ptr(T*)`.
- **`Subject`** (`_exercises/shared-ptr-ex/tests_observer.cpp`). It holds an `int` state and
  a set of weakly held observers (module `Observer`). An observer is known by its owner's
  address, which is the order `std::owner_less` gives the set. The set `alive` says whose
  owner still exists, so that `weak_ptr::lock` succeeds for them. `notify` is a loop over
  the set in that order.
- **Type traits** (`templates/tests_type_traits.cpp`). `foo`/`Foo<N>`, `Identity`, `IsSame`,
  `RemoveRef`, `IsVoid` and `IsPointer`, with their `_v`/`_t` aliases, are functions over a
  datatype of C++ types: fundamental types, `const`, `T*`, `T&` and `T&&` (module
  `TypeTraits`).

The shared modules are:

- `Wrappers` holds `Option`.
- `CInt` holds the 32-bit `int` range. Signed overflow is undefined behaviour, so an `int`
  result out of range is a precondition violation.
- `Decimal` holds `std::to_string` on integers, with a parser proved to invert it.

Several things in the source are inputs of the model:

- The environment's choices become parameters: which observers are still alive, and the
  addresses at which `unique_ptr` objects are created.
- The static counter of `create_gadget` is an explicit argument and result.
- The element value `T{}` in `zero` is a parameter. It is 0 for `int`, `""` for
  `std::string` and `false` for `bool`.

## Model

| member | source | states |
|---|---|---|
| Algorithms.Maximum | templates/tests_templates.cpp:18-22 | for an asymmetric `operator<`, `maximum<T>` returns one of its two arguments, and neither argument is greater than the result. When the first argument is not less than the second, including a tie, it returns the first |
| Algorithms.MaximumInt | templates/tests_templates.cpp:18-22 | `maximum<int>` returns one of its arguments, and the result is at least as large as both |
| Algorithms.StrCmp | templates/tests_templates.cpp:24-27 | the sign `strcmp` yields is -1, 0 or 1, and it is 0 exactly when the two C strings are equal |
| Algorithms.StrCmpAntisymmetric | templates/tests_templates.cpp:26 | swapping the two strings flips the sign of `strcmp` |
| Algorithms.StrCmpIsLexOrder | templates/tests_templates.cpp:26 | `strcmp` is negative exactly when the first string is a proper prefix of the second, or has the smaller character at the first position where they differ |
| Algorithms.MaximumCStr | templates/tests_templates.cpp:24-27 | the `const char*` overload returns one of its arguments, and neither argument is lexicographically greater. When `a` is not lexicographically less than `b`, including equal strings, it returns `a` |
| Algorithms.Find | templates/tests_templates.cpp:52-63 | `find` stays within `[begin, end]`. A position before `end` holds `value`, and no earlier position does. It returns `end` exactly when no element of the range equals `value` |
| Algorithms.FindIf | templates/tests_templates.cpp:65-78 | `find_if` returns the first position whose element satisfies the predicate. It returns `end` exactly when no element does |
| Algorithms.FindIn | templates/tests_templates.cpp:52-63 | over a whole container, `find` returns the end iterator exactly when `value` does not occur. Otherwise it returns a position holding `value` with no occurrence before it |
| Algorithms.FindIsFirstOccurrence | templates/tests_templates.cpp:52-63 | any position that is the first occurrence of `value` in the range is the one `find` returns |
| Algorithms.FindIsFindIfEquals | templates/tests_templates.cpp:52-78 | `find` gives the same position as `find_if` with the predicate "equals `value`" |
| Algorithms.Zero | templates/tests_templates.cpp:80-87 | `zero` keeps the container's length and sets every element to the value-initialised `T{}` |
| Algorithms.ZeroIdempotent | templates/tests_templates.cpp:80-87 | zeroing an already zeroed container changes nothing |
| Algorithms.MaximumExamples | templates/tests_templates.cpp:95-103 | `maximum(10, 20)` is 20, and `maximum("Ola", "Ala")` is "Ola" |
| Algorithms.FindExamples | templates/tests_templates.cpp:111-150 | over 1..10, 5 is found at index 4 and 24 is not found (end). The first even element is at index 1, and 1, 3, 5, 7 has no even element (end) |
| Algorithms.ZeroExamples | templates/tests_templates.cpp:153-161 | zeroing {1, 2, 3} gives {0, 0, 0}, and zeroing {"abc", "def"} gives {"", ""} |
| Algorithms.ZeroFlagsCheckAsWritten | templates/tests_templates.cpp:163-165 | zeroing the four flags {1, 0, 0, 1} never equals the three-element vector the test expects |
| Algorithms.ZeroFlagsCheckCorrected | templates/tests_templates.cpp:163-165 | zeroing the four flags {1, 0, 0, 1} gives four cleared flags |
| VectorLike.Default | move-semantics/vectorlike.cpp:13-16 | a default-constructed vector has size 0 |
| VectorLike.OfSize | move-semantics/vectorlike.cpp:18-23 | `Vector(n)` has size `n`, and every element is 0 |
| VectorLike.FromList | move-semantics/vectorlike.cpp:25-30 | a vector built from an initializer list has the list's length and the list's elements in order |
| VectorLike.At | move-semantics/vectorlike.cpp:42-50 | `operator[]` reads element `index`, which must lie below `size()`. `AssignThenAt` and `IndexingExample` state what it returns |
| VectorLike.Assign | move-semantics/vectorlike.cpp:42-45 | writing `vec[i]` sets element `i`, keeps the size, and leaves every other element unchanged |
| VectorLike.AssignThenAt | move-semantics/vectorlike.cpp:42-50 | reading an element after writing it gives the written value, and a later write to the same index replaces the earlier one |
| VectorLike.RangesEqual | move-semantics/vectorlike.cpp:54 | four-iterator `std::equal` holds exactly when the two ranges are equal sequences |
| VectorLike.Equal | move-semantics/vectorlike.cpp:52-55 | `==` holds exactly when both vectors have the same size and equal elements position by position |
| VectorLike.NotEqual | move-semantics/vectorlike.cpp:57-60 | `!=` is the negation of `==` and holds exactly when the contents differ |
| VectorLike.ConstructionExamples | move-semantics/vectorlike.cpp:99-160 | `Vector()` has size 0, `Vector(10)` has size 10 and `Vector{10}` has size 1. {1, 2, 3} equals {1, 2, 3} and differs from {1, 2, 3, 4} |
| VectorLike.IndexingExample | move-semantics/vectorlike.cpp:168-178 | after writing 1, 2, 3 into `Vector(3)`, reading gives back 1, 2, 3 |
| VectorLike.Plus | move-semantics/vectorlike.cpp:209-212 | `X{a} + X{b}` has value `a + b` when that sum fits an `int` |
| VectorLike.Same | move-semantics/vectorlike.cpp:215-218 | `==` on `X` holds exactly when the values are equal |
| VectorLike.PlusCommutes | move-semantics/vectorlike.cpp:209-212 | the friend `operator+` on `X` commutes: `a + b == b + a` |
| VectorLike.OperatorExamples | move-semantics/vectorlike.cpp:220-227 | `X{10} + X{20} == 30`, which is also `10 + x2` once `10` is converted, and `X{10} + 10 == 20`. Each `int` is written as the `X` it converts to |
| UniquePtr.New | move-semantics/move_semantics_2.cpp:118 | `new` adds one object id to the live heap, leaves the `unique_ptr` objects untouched, and the id lies below the allocation bound |
| UniquePtr.Delete | move-semantics/move_semantics_2.cpp:45-48 | `delete nullptr` changes nothing. `delete p` removes exactly `p`'s object from the live heap and logs exactly that one deletion. No `unique_ptr` object changes |
| UniquePtr.Construct | move-semantics/move_semantics_2.cpp:15-25 | the default, `nullptr` and raw-pointer constructors create one new `unique_ptr` holding the given pointer. The heap, the allocation bound, the delete log and every other `unique_ptr` are unchanged |
| UniquePtr.MoveConstruct | move-semantics/move_semantics_2.cpp:30-32 | move construction gives the new object the source's pointer and leaves the source null. The heap, the delete log and every other `unique_ptr` are unchanged |
| UniquePtr.MoveAssign | move-semantics/move_semantics_2.cpp:34-43 | self move-assignment changes nothing. Otherwise the target takes the source's pointer and the source becomes null. Exactly the target's previous object, if any, is deleted and logged. No other object dies and no other `unique_ptr` changes |
| UniquePtr.Destroy | move-semantics/move_semantics_2.cpp:45-48 | the destructor removes the `unique_ptr`. Exactly its object, if any, is deleted and logged, and every other object and `unique_ptr` is unchanged |
| UniquePtr.NewKeepsValid | move-semantics/move_semantics_2.cpp:23-25 | `new` keeps the ownership invariant and yields an object no `unique_ptr` holds, which a raw-pointer constructor may therefore adopt |
| UniquePtr.ConstructKeepsValid | move-semantics/move_semantics_2.cpp:15-25 | constructing from null or from an exclusively handed-over pointer keeps the ownership invariant |
| UniquePtr.MoveConstructKeepsValid | move-semantics/move_semantics_2.cpp:30-32 | move construction keeps the invariant: the new owner replaces the source as the only holder |
| UniquePtr.MoveAssignKeepsValid | move-semantics/move_semantics_2.cpp:34-43 | move assignment keeps the invariant. Its `delete` hits a live object, so no object is deleted twice |
| UniquePtr.DestroyKeepsValid | move-semantics/move_semantics_2.cpp:45-48 | the destructor keeps the invariant. It deletes a live object exactly once |
| UniquePtr.Ptr.Get | move-semantics/move_semantics_2.cpp:50 | `get()` returns the stored pointer. `Construct` and `MoveConstruct` state what it returns after each constructor, and `IsSet`, `Equals` and `NotEquals` state their results through it |
| UniquePtr.Ptr.IsSet | move-semantics/move_semantics_2.cpp:52-55 | `operator bool` holds exactly when the `unique_ptr` compares unequal to a null one, which is the `ptr != nullptr` test of the move test case |
| UniquePtr.Ptr.Equals | move-semantics/move_semantics_2.cpp:57-60 | `==` holds exactly when both `get()` results are the same pointer |
| UniquePtr.Ptr.NotEquals | move-semantics/move_semantics_2.cpp:62-65 | `!=` holds exactly when the two `get()` results differ |
| UniquePtr.StepKeepsValid | move-semantics/move_semantics_2.cpp:27-48 | every operation the class permits keeps the ownership invariant, provided each pointer from `new` goes to at most one `unique_ptr` |
| UniquePtr.RunKeepsValid | move-semantics/move_semantics_2.cpp:27-48 | every sequence of `unique_ptr` operations that makes no copy and gives each pointer from `new` to at most one `unique_ptr` ends in a valid world, if it starts in one |
| UniquePtr.SingleOwnership | move-semantics/move_semantics_2.cpp:27-48 | after any program that makes no copy and gives each pointer from `new` to at most one `unique_ptr`, three things hold: no two `unique_ptr` objects hold the same non-null pointer, every held object is live, and no object was deleted twice |
| UniquePtr.DistinctPtrsEqualOnlyWhenNull | move-semantics/move_semantics_2.cpp:57-65 | two different `unique_ptr` objects compare `==` exactly when both are null, and `!=` is its negation |
| UniquePtr.ConstructionExamples | move-semantics/move_semantics_2.cpp:90-123 | a null `unique_ptr` has `get() == nullptr`, equals another null one and is false. After a move the source is false and the target holds the object |
| UniquePtr.CopyWouldDeleteTwice | move-semantics/move_semantics_2.cpp:27-28 | a member-wise copy would break single ownership, and destroying both copies would delete the object twice |
| UniquePtr.GadgetName | move-semantics/move_semantics_2.cpp:81 | the gadget name is `name` followed by `#`, and the number after `#` parses back to the id |
| UniquePtr.GadgetNameText | move-semantics/move_semantics_2.cpp:81 | the gadget name is exactly `name + "#" + std::to_string(id)`, so the text after `#` is the canonical decimal of the id |
| UniquePtr.NextGadget | move-semantics/move_semantics_2.cpp:78-81 | each `create_gadget` call increments the counter and uses the new value as the gadget's id. The name starts with `name#`, and the rest parses back to that id |
| UniquePtr.CreateGadget | move-semantics/move_semantics_2.cpp:76-84 | `create_gadget` allocates one new object, with an id at or above the old allocation bound, and returns a new `unique_ptr` holding it. The gadget is the one `NextGadget` makes from the counter: its id is the incremented counter, and its name is `name#` followed by the id. The counter goes up by one, and every other `unique_ptr`, the rest of the heap and the delete log are unchanged |
| UniquePtr.CreateGadgetKeepsValid | move-semantics/move_semantics_2.cpp:76-84 | the pointer `create_gadget` returns is the only owner of a freshly allocated object |
| UniquePtr.CreateGadgets | move-semantics/move_semantics_2.cpp:76-84 | successive `create_gadget` calls yield one gadget per name. `CreateGadgetsClosedForm` states which gadget each call yields |
| UniquePtr.CreateGadgetsClosedForm | move-semantics/move_semantics_2.cpp:76-84 | the i-th of successive calls, counting from 0, makes the gadget that a single call makes from counter `idGen + i`. That gadget's id is `idGen + i + 1` |
| UniquePtr.GadgetNamesDiffer | move-semantics/move_semantics_2.cpp:79-81 | two calls with the same name but different counter values produce different gadget names |
| UniquePtr.CreateGadgetExamples | move-semantics/move_semantics_2.cpp:134-136 | three `create_gadget("smartwatch")` calls from a fresh counter give smartwatch#1, #2 and #3 with ids 1, 2 and 3 |
| Decimal.NatToString | move-semantics/move_semantics_2.cpp:81 | `to_string` of a non-negative value is one or more digits. It is a single digit exactly below 10, and it starts with `0` only for 0 |
| Decimal.NatToStringRoundTrip | move-semantics/move_semantics_2.cpp:81 | parsing the decimal text `to_string` gives a non-negative number returns that number |
| Decimal.IntToString | _exercises/shared-ptr-ex/tests_observer.cpp:42 | the text `to_string` gives an `int` is digits, with a leading minus exactly for negative values, and parsing it returns the value. It is canonical: 0 is exactly `"0"`, no other value starts with `0`, and no `0` follows the minus sign |
| Decimal.IntToStringInjective | move-semantics/move_semantics_2.cpp:81 | different numbers have different `to_string` texts |
| Observer.NewSubject | _exercises/shared-ptr-ex/tests_observer.cpp:19-25 | a new subject has state 0 and no observers |
| Observer.Register | _exercises/shared-ptr-ex/tests_observer.cpp:27-30 | registering adds the observer and keeps the others. An observer already present keeps a single entry, and the state is unchanged |
| Observer.Unregister | _exercises/shared-ptr-ex/tests_observer.cpp:32-35 | unregistering removes exactly that observer and keeps all others |
| Observer.RegisterTwiceKeepsOne | _exercises/shared-ptr-ex/tests_observer.cpp:27-30 | registering the same observer twice is the same as registering it once |
| Observer.UnregisterUndoesRegister | _exercises/shared-ptr-ex/tests_observer.cpp:27-35 | unregistering a newly registered observer restores the subject |
| Observer.Notify | _exercises/shared-ptr-ex/tests_observer.cpp:47-63 | `notify` calls `update` with the event exactly once on each registered observer whose owner is alive, in set order. It erases the expired observers, keeps the live ones, and leaves the state unchanged |
| Observer.SetState | _exercises/shared-ptr-ex/tests_observer.cpp:37-44 | setting the current value changes nothing and notifies no one. A new value is stored, and "Changed state on: " followed by the value is delivered to each live observer. Expired observers are pruned |
| Observer.ChangedEvent | _exercises/shared-ptr-ex/tests_observer.cpp:42 | the event text starts with "Changed state on: ", and the new state can be read back from the rest |
| Observer.ChangedEventText | _exercises/shared-ptr-ex/tests_observer.cpp:42 | the event text is exactly `"Changed state on: " + std::to_string(state)` |
| Observer.ObserverPatternScenario | _exercises/shared-ptr-ex/tests_observer.cpp:90-112 | with observers 1 and 2, `set_state(1)` reaches both. After observer 2's owner is reset, `set_state(2)` reaches only observer 1 and drops observer 2 from the set |
| TypeTraits.FooFunction | templates/tests_type_traits.cpp:3-6 | `foo(x)` is even, and halving it gives `x` back |
| TypeTraits.FooTemplate | templates/tests_type_traits.cpp:8-12 | `Foo<N>::value` computed at compile time equals the run-time `foo(N)` |
| TypeTraits.FooAgrees | templates/tests_type_traits.cpp:63-66 | `Foo<5>::value` and `foo(5)` are both 10 |
| TypeTraits.Identity | templates/tests_type_traits.cpp:16-20 | `Identity<T>::type` is `T` |
| TypeTraits.IsSame | templates/tests_type_traits.cpp:24-34 | `IsSame<T1, T2>::value` is true exactly when `T1` and `T2` are the same type |
| TypeTraits.IsSameV | templates/tests_type_traits.cpp:37-38 | `IsSame_v` equals `IsSame<T1, T2>::value` and holds exactly for identical types |
| TypeTraits.IsSameSymmetric | templates/tests_type_traits.cpp:24-34 | `IsSame` does not depend on the order of its arguments |
| TypeTraits.RemoveRef | templates/tests_type_traits.cpp:42-58 | `RemoveRef` strips exactly one `&` or `&&` and leaves any non-reference type unchanged |
| TypeTraits.RemoveRefT | templates/tests_type_traits.cpp:60-61 | `RemoveRef_t<T>` is `RemoveRef<T>::type`, and it is the referenced type for a reference |
| TypeTraits.RemoveRefIdempotent | templates/tests_type_traits.cpp:42-58 | on types C++ can form, the result is never a reference, so a second application changes nothing |
| TypeTraits.RemoveRefUndoesReference | templates/tests_type_traits.cpp:48-58 | removing the reference from `T&` or `T&&` gives `T` |
| TypeTraits.IsVoid | templates/tests_type_traits.cpp:88-96 | `IsVoid<T>::value` is true for `void` and for no other type |
| TypeTraits.IsVoidV | templates/tests_type_traits.cpp:98-99 | `IsVoid_v` equals `IsVoid<T>::value` |
| TypeTraits.IsPointer | templates/tests_type_traits.cpp:101-109 | `IsPointer<T>::value` is true exactly for types of the form `U*` |
| TypeTraits.IsPointerV | templates/tests_type_traits.cpp:111-112 | `IsPointer_v` equals `IsPointer<T>::value` |
| TypeTraits.TraitExamples | templates/tests_type_traits.cpp:63-124 | the static assertions hold. `IsSame<int, int>` is true and `IsSame<int, double>` is false. `RemoveRef_t` of `int&`, `int&&` and `int` is `int`. `IsVoid` is true only for `void`, and `IsPointer` only for `int*` |
| TypeTraits.QualifiedTypesNotRecognised | templates/tests_type_traits.cpp:93-109 | the hand-written traits reject `const void` and `int* const`, because only the exact specializations match |

## Findings

| source | as written | input that shows it | evidently intended | confidence | as-written member | corrected member |
|---|---|---|---|---|---|---|
| templates/tests_templates.cpp:163-165 | the check after `zero` expects the three-element `std::vector<bool>{0, 0, 0}` | the four flags `{1, 0, 0, 1}`: `zero` keeps the length, so the result has four elements and the comparison is false | the expectation `{0, 0, 0, 0}` | high; not executed | Algorithms.ZeroFlagsCheckAsWritten | Algorithms.ZeroFlagsCheckCorrected |

## Left out

- `Traits::maximum`, `Auto::maximum` and every `maximum` on `double`: floating point is not modelled, so `maximum` is modelled over `int` and strings only.
- Algorithms.StrCmp: gives only the sign of `strcmp`, which is all the C standard fixes. Characters compare by code point, which matches `strcmp`'s `unsigned char` comparison on single-byte text. A C string is modelled by its characters before the terminating NUL, so `IsCString` requires that it contains no NUL.
- `find_if`'s output of `__PRETTY_FUNCTION__`, and all console output (`operator<<`, `print`, the observers' `update` bodies): I/O.
- `std::vector<bool>`'s proxy references in `zero`: it is modelled as plain element assignment, which is what the loop does element by element.
- `Vector`'s raw buffer: `begin`/`end` as pointers, `delete[]` in the destructor, and the pointer copy the implicitly generated copy operations would make. The buffer is a sequence here, and the source's tests never copy a `Vector`.
- `Vector(n)` with an `n` too large to allocate (`std::bad_alloc`), and the `size_t` bound on `n`. An out-of-range `operator[]` is undefined behaviour and is a precondition of `At`/`Assign`.
- `X`'s commented-out member `operator+`, `struct Y`, `dependent_name_context` and the brace-initialisation narrowing test: compiler rules with no run-time behaviour.
- UniquePtr.New: never reuses an object id, while a real `new` may return the address of a deleted object again. `FreedOnce` is therefore a statement about objects, not about raw addresses.
- `unique_ptr::operator->`, `operator*`, `Gadget::use()` and what a gadget's destructor does: the gadget header is not part of this model. Heap objects are ids without contents.
- The `std::unique_ptr`/`std::shared_ptr` section of the `unique_ptr` test, and the pushes into a `std::vector` of `unique_ptr`. They exercise the standard library; each push is a move construction, which `MoveConstruct` covers.
- `weak_ptr`/`shared_ptr` reference counting and `enable_shared_from_this`. Whether an observer's owner is alive is an input set. Re-entrant calls from `update` back into the subject are not modelled.
- The implicit conversion from `int` to `X` through the non-explicit `X(int)`: it is a compile-time rule. The model writes the converted `X` directly.
- TypeTraits.IsSame: type terms are taken literally, without reference collapsing or merging of repeated `const`. C++ cannot form `const const int` or `int& &`, but the `Type` datatype can. For such terms `IsSame` compares the literal terms. `RemoveRefIdempotent` is stated only for types C++ can form (`WellFormed`).
- Type traits beyond the lesson's own: `volatile`, arrays, function and class types. `Identity<int>::type x = 42` only declares a variable.
- move-semantics/perfect_forwarding.cpp, move-semantics/passing_args.cpp, move-semantics/move_semantics_1.cpp, type-deduction/type_deduction.cpp and smart-pointers/smart_pointers.cpp are not part of this model. They show overload resolution, deduction and reference-binding rules, or exercise the standard smart pointers, rather than behaviour of their own.

=== FILE: algorithms.dfy ===
/** The function templates of the templates lesson: `maximum`, and the `Exercise` algorithms
    `find`, `find_if` and `zero`. An iterator is an index into a sequence; the index `|s|`
    plays the role of the container's `end()`. */
module Algorithms {

  /** `operator<` behaves as an order: never true in both directions (hence never
      `x < x`). */
  ghost predicate Asymmetric<T(!new)>(less: (T, T) -> bool) {
    forall x, y :: less(x, y) ==> !less(y, x)
  }

  /** `maximum<T>`: the second argument only when the first compares less than it, so a tie
      yields the first argument. `less` stands for `operator<` on `T`. */
  function Maximum<T(!new)>(a: T, b: T, less: (T, T) -> bool): (r: T)
    requires Asymmetric(less)
    ensures r == a || r == b
    ensures !less(r, a) && !less(r, b)
    ensures !less(a, b) ==> r == a
  {
    if less(a, b) then b else a
  }

  /** `maximum<int>`. */
  function MaximumInt(a: int, b: int): (r: int)
    ensures r == a || r == b
    ensures a <= r && b <= r
  {
    Maximum(a, b, (x: int, y: int) => x < y)
  }

  /** A C string is modelled by its characters before the terminating NUL, so it holds none. */
  predicate IsCString(s: string) {
    forall i :: 0 <= i < |s| ==> s[i] != '\0'
  }

  /** `a` is a proper prefix of `b`. */
  predicate ProperPrefix(a: string, b: string) {
    |a| < |b| && a == b[..|a|]
  }

  /** At the first position where `a` and `b` differ, `a` has the smaller character. */
  predicate SmallerAtFirstDifference(a: string, b: string) {
    exists k :: 0 <= k < |a| && k < |b| && a[..k] == b[..k] && a[k] < b[k]
  }

  /** The lexicographic order, stated directly. */
  predicate LexLess(a: string, b: string) {
    ProperPrefix(a, b) || SmallerAtFirstDifference(a, b)
  }

  /** The sign of `std::strcmp`, compared character by character; a proper prefix is
      smaller. */
  function StrCmp(a: string, b: string): (r: int)
    requires IsCString(a) && IsCString(b)
    ensures -1 <= r <= 1
    ensures r == 0 <==> a == b
    decreases |a|
  {
    if |a| == 0 then (if |b| == 0 then 0 else -1)
    else if |b| == 0 then 1
    else if a[0] < b[0] then -1
    else if b[0] < a[0] then 1
    else StrCmp(a[1..], b[1..])
  }

  /** Swapping the arguments of `strcmp` flips the sign of its result. */
  lemma {:induction false} StrCmpAntisymmetric(a: string, b: string)
    requires IsCString(a) && IsCString(b)
    ensures StrCmp(b, a) == -StrCmp(a, b)
    decreases |a|
  {
    if |a| != 0 && |b| != 0 && a[0] == b[0] {
      StrCmpAntisymmetric(a[1..], b[1..]);
    }
  }

  /** A string lexicographically below a non-empty one starts with a character no greater. */
  lemma LexLessHead(a: string, b: string)
    ensures |a| > 0 && |b| > 0 && LexLess(a, b) ==> a[0] <= b[0]
  {
    if |a| > 0 && |b| > 0 && LexLess(a, b) {
      if ProperPrefix(a, b) {
        assert a[0] == b[..|a|][0];
      } else {
        var k :| 0 <= k < |a| && k < |b| && a[..k] == b[..k] && a[k] < b[k];
        if k > 0 {
          assert a[0] == a[..k][0] && b[0] == b[..k][0];
        }
      }
    }
  }

  /** Behind an equal first character, being a proper prefix is decided by the rest. */
  lemma ProperPrefixTail(a: string, b: string)
    requires |a| > 0 && |b| > 0 && a[0] == b[0]
    ensures ProperPrefix(a, b) <==> ProperPrefix(a[1..], b[1..])
  {
    if ProperPrefix(a, b) {
      assert a[1..] == b[1..][..|a| - 1];
    }
    if ProperPrefix(a[1..], b[1..]) {
      assert a == [a[0]] + a[1..] && b[..|a|] == [b[0]] + b[1..][..|a| - 1];
    }
  }

  /** Behind an equal first character, a first difference of `a` and `b` is one of the rests. */
  lemma SmallerAtFirstDifferenceDropHead(a: string, b: string)
    requires |a| > 0 && |b| > 0 && a[0] == b[0] && SmallerAtFirstDifference(a, b)
    ensures SmallerAtFirstDifference(a[1..], b[1..])
  {
    var k :| 0 <= k < |a| && k < |b| && a[..k] == b[..k] && a[k] < b[k];
    assert k >= 1;
    assert a[1..][..k - 1] == a[1..k] == b[1..k] == b[1..][..k - 1];
    assert a[1..][k - 1] < b[1..][k - 1];
  }

  /** A first difference of the rests is one of the whole strings behind an equal first
      character. */
  lemma SmallerAtFirstDifferenceAddHead(a: string, b: string)
    requires |a| > 0 && |b| > 0 && a[0] == b[0] && SmallerAtFirstDifference(a[1..], b[1..])
    ensures SmallerAtFirstDifference(a, b)
  {
    var a', b' := a[1..], b[1..];
    var k :| 0 <= k < |a'| && k < |b'| && a'[..k] == b'[..k] && a'[k] < b'[k];
    assert a[..k + 1] == [a[0]] + a'[..k] && b[..k + 1] == [b[0]] + b'[..k];
    assert a[k + 1] < b[k + 1];
  }

  /** `strcmp` is negative exactly when the first string comes lexicographically first. */
  lemma {:induction false} StrCmpIsLexOrder(a: string, b: string)
    requires IsCString(a) && IsCString(b)
    ensures StrCmp(a, b) == -1 <==> LexLess(a, b)
    decreases |a|
  {
    LexLessHead(a, b);
    if |a| == 0 {
      if |b| > 0 {
        assert a == b[..0];
      }
    } else if |b| == 0 {
    } else if a[0] < b[0] {
      assert a[..0] == b[..0];
    } else if a[0] == b[0] {
      StrCmpIsLexOrder(a[1..], b[1..]);
      ProperPrefixTail(a, b);
      if SmallerAtFirstDifference(a, b) {
        SmallerAtFirstDifferenceDropHead(a, b);
      }
      if SmallerAtFirstDifference(a[1..], b[1..]) {
        SmallerAtFirstDifferenceAddHead(a, b);
      }
    }
  }

  /** The `const char*` overload of `maximum`: the lexicographically greater string,
      the first one on a tie. */
  function MaximumCStr(a: string, b: string): (r: string)
    requires IsCString(a) && IsCString(b)
    ensures r == a || r == b
    ensures !LexLess(r, a) && !LexLess(r, b)
    ensures !LexLess(a, b) ==> r == a
  {
    StrCmpAntisymmetric(a, b);
    StrCmpIsLexOrder(a, b);
    StrCmpIsLexOrder(b, a);
    StrCmpIsLexOrder(a, a);
    StrCmpIsLexOrder(b, b);
    if StrCmp(a, b) < 0 then b else a
  }

  /** `Exercise::find(begin, end, value)`: the first position in `[begin, end)` holding
      `value`, or `end` when there is none. */
  function Find<T(==)>(s: seq<T>, begin: nat, end: nat, value: T): (it: nat)
    requires begin <= end <= |s|
    ensures begin <= it <= end
    ensures it < end ==> s[it] == value
    ensures forall k :: begin <= k < it ==> s[k] != value
    ensures it == end <==> forall k :: begin <= k < end ==> s[k] != value
    decreases end - begin
  {
    if begin == end then end
    else if s[begin] == value then begin
    else Find(s, begin + 1, end, value)
  }

  /** `Exercise::find_if(begin, end, predicate)`: the first position in `[begin, end)` whose
      element satisfies `pred`, or `end` when there is none. */
  function FindIf<T>(s: seq<T>, begin: nat, end: nat, pred: T -> bool): (it: nat)
    requires begin <= end <= |s|
    ensures begin <= it <= end
    ensures it < end ==> pred(s[it])
    ensures forall k :: begin <= k < it ==> !pred(s[k])
    ensures it == end <==> forall k :: begin <= k < end ==> !pred(s[k])
    decreases end - begin
  {
    if begin == end then end
    else if pred(s[begin]) then begin
    else FindIf(s, begin + 1, end, pred)
  }

  /** `find` over a whole container: `|s|` (the end iterator) exactly when `value` does not
      occur, and otherwise its first occurrence. */
  function FindIn<T(==)>(s: seq<T>, value: T): (it: nat)
    ensures it <= |s|
    ensures it == |s| <==> value !in s
    ensures it < |s| ==> s[it] == value
    ensures forall k :: 0 <= k < it ==> s[k] != value
  {
    Find(s, 0, |s|, value)
  }

  /** Any position that is the first occurrence of `value` in the range is the one `find`
      returns: `find` agrees with the reference definition of "first occurrence". */
  lemma FindIsFirstOccurrence<T>(s: seq<T>, begin: nat, end: nat, value: T, k: nat)
    requires begin <= k <= end <= |s|
    requires k < end ==> s[k] == value
    requires forall j :: begin <= j < k ==> s[j] != value
    ensures Find(s, begin, end, value) == k
  {
  }

  /** `find` is `find_if` with the predicate "equals `value`". */
  lemma FindIsFindIfEquals<T>(s: seq<T>, begin: nat, end: nat, value: T)
    requires begin <= end <= |s|
    ensures Find(s, begin, end, value) == FindIf(s, begin, end, x => x == value)
  {
  }

  /** `Exercise::zero`: every element of the container assigned the value-initialised
      element `T{}` (passed as `init`), in place, so the length is kept. */
  function Zero<T>(s: seq<T>, init: T): (r: seq<T>)
    ensures |r| == |s|
    ensures forall k :: 0 <= k < |r| ==> r[k] == init
  {
    if |s| == 0 then [] else [init] + Zero(s[1..], init)
  }

  /** Zeroing twice is zeroing once. */
  lemma ZeroIdempotent<T>(s: seq<T>, init: T)
    ensures Zero(Zero(s, init), init) == Zero(s, init)
  {
  }

  /** The checks of the function-template test case. */
  lemma MaximumExamples()
    ensures MaximumInt(10, 20) == 20
    ensures MaximumCStr("Ola", "Ala") == "Ola"
  {
    assert StrCmp("Ola", "Ala") == 1;
  }

  /** The checks of the `find` and `find_if` test cases on the values 1..10 and 1, 3, 5, 7. */
  lemma FindExamples()
    ensures FindIn([1, 2, 3, 4, 5, 6, 7, 8, 9, 10], 5) == 4
    ensures FindIn([1, 2, 3, 4, 5, 6, 7, 8, 9, 10], 24) == 10
    ensures FindIf([1, 2, 3, 4, 5, 6, 7, 8, 9, 10], 0, 10, (x: int) => x % 2 == 0) == 1
    ensures FindIf([1, 3, 5, 7], 0, 4, (x: int) => x % 2 == 0) == 4
  {
    FindIsFirstOccurrence([1, 2, 3, 4, 5, 6, 7, 8, 9, 10], 0, 10, 5, 4);
  }

  /** The `std::vector<int>` and `std::list<std::string>` checks of the `zero` test case. */
  lemma ZeroExamples()
    ensures Zero([1, 2, 3], 0) == [0, 0, 0]
    ensures Zero(["abc", "def"], "") == ["", ""]
  {
  }

  /** The `std::vector<bool>` check as written: four flags are zeroed, but the expected
      vector has three elements, so the comparison cannot succeed. */
  lemma ZeroFlagsCheckAsWritten()
    ensures Zero([true, false, false, true], false) != [false, false, false]
  {
  }

  /** The `std::vector<bool>` check with the evidently intended expectation of four
      cleared flags. */
  lemma ZeroFlagsCheckCorrected()
    ensures Zero([true, false, false, true], false) == [false, false, false, false]
  {
  }
}

=== FILE: cint.dfy ===
/** The width of the C++ `int` used by the modelled code (32 bits, two's complement). */
module CInt {

  const INT_MIN: int := -0x8000_0000
  const INT_MAX: int := 0x7fff_ffff

  /** True when `x` is representable as an `int`; signed overflow is undefined behaviour in C++,
      so an operation whose exact result falls outside this range is not a valid call. */
  predicate InRange(x: int) {
    INT_MIN <= x <= INT_MAX
  }

  type Int32 = x: int | INT_MIN <= x <= INT_MAX
}

=== FILE: decimal.dfy ===
/** `std::to_string` on integers: the decimal text of a value, and a parser that inverts it. */
module Decimal {

  predicate IsDigit(c: char) {
    '0' <= c <= '9'
  }

  predicate AllDigits(s: string) {
    forall i :: 0 <= i < |s| ==> IsDigit(s[i])
  }

  /** A string `std::to_string(int)` can produce: an optional minus sign, then digits. */
  predicate IsNumeral(s: string) {
    || (|s| >= 1 && AllDigits(s))
    || (|s| >= 2 && s[0] == '-' && AllDigits(s[1..]))
  }

  function DigitChar(d: nat): (c: char)
    requires d < 10
    ensures IsDigit(c)
  {
    (48 + d) as char
  }

  function DigitValue(c: char): (d: nat)
    requires IsDigit(c)
    ensures d < 10
  {
    c as int - 48
  }

  lemma DigitRoundTrip(d: nat)
    requires d < 10
    ensures DigitValue(DigitChar(d)) == d
  {
  }

  /** Decimal text of a non-negative value: most significant digit first, no leading zero. */
  function NatToString(n: nat): (r: string)
    ensures AllDigits(r)
    ensures |r| >= 1
    ensures |r| == 1 <==> n < 10
    ensures r[0] == '0' <==> n == 0
    decreases n
  {
    if n < 10 then [DigitChar(n)] else NatToString(n / 10) + [DigitChar(n % 10)]
  }

  /** Reads digits back into a value; the inverse of `NatToString`. */
  function ParseNat(s: string): nat
    requires AllDigits(s)
    decreases |s|
  {
    if |s| == 0 then 0 else ParseNat(s[..|s| - 1]) * 10 + DigitValue(s[|s| - 1])
  }

  function ParseInt(s: string): int
    requires IsNumeral(s)
  {
    if s[0] == '-' then -(ParseNat(s[1..]) as int) else ParseNat(s)
  }

  lemma {:induction false} NatToStringRoundTrip(n: nat)
    ensures ParseNat(NatToString(n)) == n
    decreases n
  {
    var s := NatToString(n);
    if n < 10 {
      DigitRoundTrip(n);
      assert s[..0] == [];
    } else {
      NatToStringRoundTrip(n / 10);
      assert s[..|s| - 1] == NatToString(n / 10);
      DigitRoundTrip(n % 10);
    }
  }

  /** `std::to_string(int)`: a minus sign in front of the magnitude for negative values.
      The text is a numeral, signed exactly when the value is negative, without leading
      zeros (so 0 is `"0"`), and reads back as the value. */
  function IntToString(x: int): (r: string)
    ensures IsNumeral(r) && ParseInt(r) == x
    ensures r[0] == '-' <==> x < 0
    ensures x >= 0 ==> (r[0] == '0' <==> x == 0)
    ensures x < 0 ==> r[1] != '0'
    ensures r[0] == '0' ==> |r| == 1
  {
    if x < 0 then
      var t := NatToString(-x);
      NatToStringRoundTrip(-x);
      assert ("-" + t)[1..] == t;
      "-" + t
    else
      NatToStringRoundTrip(x);
      NatToString(x)
  }

  /** `prefix` followed by the text of `x`: the prefix and the value can both be read back. */
  function Labelled(prefix: string, x: int): (r: string)
    ensures |r| > |prefix| && r[..|prefix|] == prefix
    ensures IsNumeral(r[|prefix|..]) && ParseInt(r[|prefix|..]) == x
  {
    var t := IntToString(x);
    assert (prefix + t)[..|prefix|] == prefix && (prefix + t)[|prefix|..] == t;
    prefix + t
  }

  /** Different values have different texts. */
  lemma IntToStringInjective(x: int, y: int)
    requires IntToString(x) == IntToString(y)
    ensures x == y
  {
  }
}

=== FILE: observer.dfy ===
/** The `Subject` of the observer exercise: an `int` state and a set of weakly held observers.
    An observer is known by the address of its owner (what `std::owner_less` orders the set
    by); whether its owner is still alive, so that `weak_ptr::lock` succeeds, is given by the
    set `alive`. */
module Observer {
  import opened Wrappers
  import Decimal

  /** Owner address of a registered observer. */
  type ObserverId = nat

  datatype Subject = Subject(state: int, observers: set<ObserverId>)

  /** One `notify(event_args)` pass: the text sent, and the observers whose `update` received
      it, in the order they were called. */
  datatype Notification = Notification(event: string, receivers: seq<ObserverId>)

  /** `Subject()`: state 0, nobody registered. */
  function NewSubject(): (s: Subject)
    ensures s.state == 0 && |s.observers| == 0
  {
    Subject(0, {})
  }

  /** `register_observer`: set insertion, so registering the same owner again keeps a
      single entry. */
  function Register(s: Subject, o: ObserverId): (r: Subject)
    ensures r.state == s.state
    ensures o in r.observers
    ensures forall x :: x in r.observers <==> x in s.observers || x == o
    ensures |r.observers| == if o in s.observers then |s.observers| else |s.observers| + 1
  {
    assert o in s.observers ==> s.observers + {o} == s.observers;
    s.(observers := s.observers + {o})
  }

  /** `unregister_observer`: erases exactly that observer. */
  function Unregister(s: Subject, o: ObserverId): (r: Subject)
    ensures r.state == s.state
    ensures o !in r.observers
    ensures forall x :: x in r.observers <==> x in s.observers && x != o
  {
    s.(observers := s.observers - {o})
  }

  lemma RegisterTwiceKeepsOne(s: Subject, o: ObserverId)
    ensures Register(Register(s, o), o) == Register(s, o)
  {
  }

  /** Unregistering undoes registering a new observer. */
  lemma UnregisterUndoesRegister(s: Subject, o: ObserverId)
    requires o !in s.observers
    ensures Unregister(Register(s, o), o) == s
  {
  }

  /** Strictly increasing owner order, so no observer appears twice. */
  predicate Increasing(xs: seq<ObserverId>) {
    forall i, j :: 0 <= i < j < |xs| ==> xs[i] < xs[j]
  }

  /** The bookkeeping of `Notify` part-way through the walk: `done` are the visited
      observers, all below the unvisited `rest`; `kept` are the live visited ones, and
      `receivers` lists them in increasing order. */
  ghost predicate Walked(all: set<ObserverId>, alive: set<ObserverId>, done: set<ObserverId>,
                         rest: set<ObserverId>, kept: set<ObserverId>, receivers: seq<ObserverId>)
  {
    && done + rest == all && done !! rest
    && kept == done * alive
    && (forall x, y :: x in done && y in rest ==> x < y)
    && (forall x :: x in receivers <==> x in kept)
    && Increasing(receivers)
  }

  /** Visiting the least unvisited observer `o` keeps the bookkeeping. */
  lemma WalkStep(all: set<ObserverId>, alive: set<ObserverId>, done: set<ObserverId>,
                 rest: set<ObserverId>, kept: set<ObserverId>, receivers: seq<ObserverId>, o: ObserverId)
    requires Walked(all, alive, done, rest, kept, receivers)
    requires o in rest && forall x :: x in rest ==> o <= x
    ensures o in alive ==> Walked(all, alive, done + {o}, rest - {o}, kept + {o}, receivers + [o])
    ensures o !in alive ==> Walked(all, alive, done + {o}, rest - {o}, kept, receivers)
  {
    if o in alive {
      AppendIncreasing(receivers, o);
    }
  }

  /** The tail of an increasing listing holds everything but its least element. */
  lemma InTail(xs: seq<ObserverId>, x: ObserverId)
    requires Increasing(xs) && |xs| > 0
    ensures x in xs[1..] <==> x in xs && x != xs[0]
  {
    if x in xs[1..] {
      var k :| 0 <= k < |xs[1..]| && xs[1..][k] == x;
      assert xs[k + 1] == x;
    }
    if x in xs && x != xs[0] {
      var k :| 0 <= k < |xs| && xs[k] == x;
      assert xs[1..][k - 1] == x;
    }
  }

  /** Appending an observer above every listed one keeps the listing increasing. */
  lemma AppendIncreasing(xs: seq<ObserverId>, o: ObserverId)
    requires Increasing(xs)
    requires forall x :: x in xs ==> x < o
    ensures Increasing(xs + [o])
  {
    forall i, j | 0 <= i < j < |xs| + 1
      ensures (xs + [o])[i] < (xs + [o])[j]
    {
      assert xs[i] in xs;
    }
  }

  /** Two increasing listings of the same observers are the same listing. */
  lemma {:induction false} IncreasingListing(xs: seq<ObserverId>, ys: seq<ObserverId>)
    requires Increasing(xs) && Increasing(ys)
    requires forall x :: x in xs <==> x in ys
    ensures xs == ys
    decreases |xs|
  {
    assert |xs| > 0 ==> xs[0] in ys;
    assert |ys| > 0 ==> ys[0] in xs;
    if |xs| > 0 {
      assert xs[0] == ys[0] by {
        assert xs[0] in ys && ys[0] in xs;
        assert forall k :: 0 < k < |xs| ==> xs[0] < xs[k];
        assert forall k :: 0 < k < |ys| ==> ys[0] < ys[k];
      }
      forall x
        ensures x in xs[1..] <==> x in ys[1..]
      {
        InTail(xs, x);
        InTail(ys, x);
      }
      IncreasingListing(xs[1..], ys[1..]);
    }
  }

  /** Every non-empty set of observers has a least one, which `std::set` visits first. */
  lemma {:induction false} Minimum(s: set<ObserverId>) returns (m: ObserverId)
    requires s != {}
    ensures m in s && forall x :: x in s ==> m <= x
    decreases |s|
  {
    var y :| y in s;
    if s == {y} {
      m := y;
    } else {
      var m' := Minimum(s - {y});
      m := if y < m' then y else m';
      forall x | x in s
        ensures m <= x
      {
        if x != y {
          assert x in s - {y};
        }
      }
    }
  }

  /** `notify(event_args)`: walks the observers in set order; each one whose owner is alive
      receives `update(event_args)` once, each expired one is erased. */
  method Notify(s: Subject, event: string, alive: set<ObserverId>) returns (r: Subject, n: Notification)
    ensures r.state == s.state
    ensures r.observers == s.observers * alive
    ensures n.event == event
    ensures forall x :: x in n.receivers <==> x in s.observers && x in alive
    ensures Increasing(n.receivers)
  {
    var rest := s.observers;
    var done: set<ObserverId> := {};
    var kept: set<ObserverId> := {};
    var receivers: seq<ObserverId> := [];
    while rest != {}
      invariant Walked(s.observers, alive, done, rest, kept, receivers)
      decreases rest
    {
      ghost var least := Minimum(rest);
      var o :| o in rest && forall x :: x in rest ==> o <= x;
      WalkStep(s.observers, alive, done, rest, kept, receivers, o);
      if o in alive {
        receivers := receivers + [o];
        kept := kept + {o};
      }
      done := done + {o};
      rest := rest - {o};
    }
    r := Subject(s.state, kept);
    n := Notification(event, receivers);
  }

  const ChangedPrefix: string := "Changed state on: "

  /** The event text `set_state` sends: the fixed prefix, then the new state, which can be
      read back from it. */
  function ChangedEvent(state: int): (e: string)
    ensures |e| > |ChangedPrefix| && e[..|ChangedPrefix|] == ChangedPrefix
    ensures Decimal.IsNumeral(e[|ChangedPrefix|..]) && Decimal.ParseInt(e[|ChangedPrefix|..]) == state
  {
    Decimal.Labelled(ChangedPrefix, state)
  }

  /** The number after the prefix is exactly the decimal text `std::to_string` gives. */
  lemma ChangedEventText(state: int)
    ensures ChangedEvent(state) == ChangedPrefix + Decimal.IntToString(state)
    ensures ChangedEvent(state)[|ChangedPrefix|..] == Decimal.IntToString(state)
  {
    assert (ChangedPrefix + Decimal.IntToString(state))[|ChangedPrefix|..] == Decimal.IntToString(state);
  }

  /** `set_state(new_state)`: a new value is stored and announced to the live observers;
      the current value changes nothing and `notify` is not called. */
  method SetState(s: Subject, newState: int, alive: set<ObserverId>) returns (r: Subject, sent: Option<Notification>)
    ensures r.state == newState
    ensures newState == s.state <==> sent.None?
    ensures newState == s.state ==> r == s
    ensures newState != s.state ==>
      && r.observers == s.observers * alive
      && sent.value.event == ChangedEvent(newState)
      && (forall x :: x in sent.value.receivers <==> x in s.observers && x in alive)
      && Increasing(sent.value.receivers)
  {
    if s.state != newState {
      var n;
      r, n := Notify(s.(state := newState), ChangedEvent(newState), alive);
      sent := Some(n);
    } else {
      r, sent := s, None;
    }
  }

  /** The `using observer pattern` test case: observers 1 and 2 are registered, the state goes
      to 1 while both live, observer 2's owner is reset, and the state goes to 2. */
  method ObserverPatternScenario() returns (first: Option<Notification>, second: Option<Notification>, last: Subject)
    ensures first == Some(Notification(ChangedEvent(1), [1, 2]))
    ensures second == Some(Notification(ChangedEvent(2), [1]))
    ensures last == Subject(2, {1})
  {
    var s := Register(Register(NewSubject(), 1), 2);
    s, first := SetState(s, 1, {1, 2});
    IncreasingListing(first.value.receivers, [1, 2]);
    s, second := SetState(s, 2, {1});
    IncreasingListing(second.value.receivers, [1]);
    last := s;
  }
}

=== FILE: type_traits.dfy ===
/** The compile-time computations of the type-traits lesson: `foo`/`Foo<N>`, and the traits
    `Identity`, `IsSame`, `RemoveRef`, `IsVoid`, `IsPointer` with their `_v`/`_t` aliases,
    evaluated over a small grammar of C++ types. */
module TypeTraits {
  import opened CInt

  /** The fundamental types the lesson uses. */
  datatype Fundamental = Int | Double | Bool | Char | Void

  /** A C++ type: a fundamental type or a type built from one by `const`, `*`, `&` or `&&`. */
  datatype Type =
    | Basic(kind: Fundamental)
    | Const(base: Type)
    | Ptr(base: Type)
    | LRef(base: Type)
    | RRef(base: Type)

  /** What a `bool`-valued trait exposes as `::value` (`std::true_type`/`std::false_type`). */
  datatype BoolConstant = BoolConstant(value: bool)

  /** What a type-valued trait exposes as `::type`. */
  datatype TypeResult = TypeResult(result: Type)

  predicate IsReference(t: Type) {
    t.LRef? || t.RRef?
  }

  /** Types C++ can actually form: no reference to a reference or to `void`, no pointer to a
      reference, and `const` neither repeated nor applied to a reference. */
  predicate WellFormed(t: Type) {
    match t
    case Basic(_) => true
    case Const(u) => !IsReference(u) && !u.Const? && WellFormed(u)
    case Ptr(u) => !IsReference(u) && WellFormed(u)
    case LRef(u) => !IsReference(u) && u != Basic(Void) && u != Const(Basic(Void)) && WellFormed(u)
    case RRef(u) => !IsReference(u) && u != Basic(Void) && u != Const(Basic(Void)) && WellFormed(u)
  }

  /** The run-time `foo(x)`; a doubled value outside the `int` range would overflow. */
  function FooFunction(x: Int32): (r: Int32)
    requires InRange(2 * x)
    ensures r % 2 == 0 && r / 2 == x
  {
    2 * x
  }

  /** `Foo<N>::value`, computed at compile time: the same value the run-time `foo(N)` gives. */
  function FooTemplate(n: Int32): (r: Int32)
    requires InRange(2 * n)
    ensures r == FooFunction(n)
  {
    2 * n
  }

  /** Both forms give 10 for 5. */
  lemma FooAgrees()
    ensures FooTemplate(5) == 10 && FooFunction(5) == 10
  {
  }

  /** `Identity<T>::type`. */
  function Identity(t: Type): (r: TypeResult)
    ensures r.result == t
  {
    TypeResult(t)
  }

  /** `IsSame<T1, T2>`: the partial specialization `IsSame<T, T>` (value `true`) is chosen
      exactly when both arguments spell the same type, constructor by constructor; otherwise
      the primary template gives `false`. */
  function IsSame(t1: Type, t2: Type): (r: BoolConstant)
    ensures r.value <==> t1 == t2
    decreases t1
  {
    match (t1, t2)
    case (Basic(a), Basic(b)) => BoolConstant(a == b)
    case (Const(a), Const(b)) => IsSame(a, b)
    case (Ptr(a), Ptr(b)) => IsSame(a, b)
    case (LRef(a), LRef(b)) => IsSame(a, b)
    case (RRef(a), RRef(b)) => IsSame(a, b)
    case _ => BoolConstant(false)
  }

  /** `IsSame_v<T1, T2>`. */
  function IsSameV(t1: Type, t2: Type): (r: bool)
    ensures r == IsSame(t1, t2).value
    ensures r <==> t1 == t2
  {
    IsSame(t1, t2).value
  }

  /** `IsSame` does not depend on the order of its arguments. */
  lemma IsSameSymmetric(t1: Type, t2: Type)
    ensures IsSame(t1, t2) == IsSame(t2, t1)
  {
  }

  /** `RemoveRef<T>::type`: the specializations for `T&` and `T&&` strip that one reference;
      the primary template leaves every other type as it is. */
  function RemoveRef(t: Type): (r: TypeResult)
    ensures IsReference(t) ==> t == LRef(r.result) || t == RRef(r.result)
    ensures !IsReference(t) ==> r.result == t
  {
    match t
    case LRef(u) => TypeResult(u)
    case RRef(u) => TypeResult(u)
    case _ => TypeResult(t)
  }

  /** `RemoveRef_t<T>`. */
  function RemoveRefT(t: Type): (r: Type)
    ensures r == RemoveRef(t).result
    ensures IsReference(t) ==> t.base == r
  {
    RemoveRef(t).result
  }

  /** On the types C++ can form, the result of `RemoveRef` is never a reference, so a second
      application changes nothing. */
  lemma RemoveRefIdempotent(t: Type)
    requires WellFormed(t)
    ensures WellFormed(RemoveRefT(t)) && !IsReference(RemoveRefT(t))
    ensures RemoveRefT(RemoveRefT(t)) == RemoveRefT(t)
  {
  }

  /** Adding either kind of reference and removing it gives the type back. */
  lemma RemoveRefUndoesReference(t: Type)
    ensures RemoveRefT(LRef(t)) == t && RemoveRefT(RRef(t)) == t
  {
  }

  /** `IsVoid<T>`: only the full specialization `IsVoid<void>` is `true`, so `const void`
      is not `void` here (unlike `std::is_void`). */
  function IsVoid(t: Type): (r: BoolConstant)
    ensures r.value <==> t == Basic(Void)
  {
    match t
    case Basic(Void) => BoolConstant(true)
    case _ => BoolConstant(false)
  }

  /** `IsVoid_v<T>`. */
  function IsVoidV(t: Type): (r: bool)
    ensures r == IsVoid(t).value
    ensures r <==> t == Basic(Void)
  {
    IsVoid(t).value
  }

  /** `IsPointer<T>`: the partial specialization `IsPointer<T*>` is `true`; a `const`-qualified
      pointer such as `int* const` does not match it (unlike `std::is_pointer`). */
  function IsPointer(t: Type): (r: BoolConstant)
    ensures r.value <==> exists u :: t == Ptr(u)
  {
    match t
    case Ptr(_) => BoolConstant(true)
    case _ => BoolConstant(false)
  }

  /** `IsPointer_v<T>`. */
  function IsPointerV(t: Type): (r: bool)
    ensures r == IsPointer(t).value
    ensures r <==> t.Ptr?
  {
    IsPointer(t).value
  }

  /** The static assertions of the test cases. */
  lemma TraitExamples()
    ensures Identity(Basic(Int)).result == Basic(Int)
    ensures IsSame(Basic(Int), Basic(Int)).value && !IsSame(Basic(Int), Basic(Double)).value
    ensures IsSameV(RemoveRefT(LRef(Basic(Int))), Basic(Int))
    ensures IsSameV(RemoveRefT(RRef(Basic(Int))), Basic(Int))
    ensures IsSame(RemoveRefT(Basic(Int)), Basic(Int)).value
    ensures !IsVoid(Basic(Int)).value && IsVoidV(Basic(Void))
    ensures !IsPointer(Basic(Int)).value && IsPointerV(Ptr(Basic(Int)))
  {
  }

  /** Where the hand-written traits part from the standard ones: cv-qualified `void` and
      pointers are not recognised. */
  lemma QualifiedTypesNotRecognised()
    ensures !IsVoidV(Const(Basic(Void)))
    ensures !IsPointerV(Const(Ptr(Basic(Int))))
  {
  }
}

=== FILE: unique_ptr.dfy ===
/** The simplified `Explain::unique_ptr<T>`: a move-only owner of one heap object, and the
    `create_gadget` factory that hands out numbered gadgets.

    The heap is a set of live object ids: `new` hands out a fresh id each time, so an id names
    one object for good. Every `unique_ptr` object lives at an address of its own (a slot),
    which is what `this != &ptr` in the move assignment compares. */
module UniquePtr {
  import opened Wrappers
  import opened CInt
  import Decimal

  /** Identity of a heap object, never reused; the null pointer is `None`. */
  type ObjectId = nat

  /** Address of a `unique_ptr` object itself. */
  type Slot = nat

  /** The state of one `unique_ptr`: the raw pointer `p_` it stores. */
  datatype Ptr = Ptr(p: Option<ObjectId>) {

    /** `get()`: the stored pointer. The comparisons below are stated through it. */
    function Get(): Option<ObjectId> {
      p
    }

    /** `explicit operator bool`: a non-null pointer is stored. */
    predicate IsSet()
      ensures IsSet() <==> NotEquals(Null)
    {
      p.Some?
    }

    /** `operator==`: the stored pointers are the same. */
    predicate Equals(rhs: Ptr)
      ensures Equals(rhs) <==> Get() == rhs.Get()
    {
      p == rhs.p
    }

    /** `operator!=`: the stored pointers differ. */
    predicate NotEquals(rhs: Ptr)
      ensures NotEquals(rhs) <==> Get() != rhs.Get()
    {
      !Equals(rhs)
    }
  }

  /** What the default constructor and the `nullptr_t` constructor store. */
  const Null: Ptr := Ptr(None)

  /** The heap (object ids below `next` have been handed out by `new`, `live` are not yet
      deleted), the `unique_ptr` objects in existence, and the log of every `delete` of a
      non-null pointer, in order. */
  datatype World = World(next: ObjectId, live: set<ObjectId>, slots: map<Slot, Ptr>, deleted: seq<ObjectId>)

  function Initial(): World {
    World(0, {}, map[], [])
  }

  ghost predicate HeapBounded(w: World) {
    forall a :: a in w.live ==> a < w.next
  }

  /** Every object a `unique_ptr` points to is still alive. */
  ghost predicate OwnedAreLive(w: World) {
    forall s :: s in w.slots && w.slots[s].IsSet() ==> w.slots[s].p.value in w.live
  }

  /** No two `unique_ptr` objects hold the same non-null pointer. */
  ghost predicate SingleOwner(w: World) {
    forall s, t :: s in w.slots && t in w.slots && s != t && w.slots[s].IsSet() ==>
      !w.slots[s].Equals(w.slots[t])
  }

  /** Every deleted object was allocated, is no longer alive, and was deleted only once. */
  ghost predicate FreedOnce(w: World) {
    && (forall i :: 0 <= i < |w.deleted| ==> w.deleted[i] < w.next && w.deleted[i] !in w.live)
    && (forall i, j :: 0 <= i < j < |w.deleted| ==> w.deleted[i] != w.deleted[j])
  }

  ghost predicate Valid(w: World) {
    HeapBounded(w) && OwnedAreLive(w) && SingleOwner(w) && FreedOnce(w)
  }

  /** A raw pointer that a new `unique_ptr` may take over: null, or a live object that no
      `unique_ptr` holds yet (as returned by `new`). */
  predicate Adoptable(w: World, p: Option<ObjectId>) {
    p.None? || (p.value in w.live && forall s :: s in w.slots ==> w.slots[s].p != p)
  }

  /** `new T`: a fresh live object. */
  function New(w: World): (r: (World, ObjectId))
    ensures r.0.live == w.live + {r.1}
    ensures r.0.slots == w.slots && r.0.deleted == w.deleted
    ensures r.1 < r.0.next
  {
    (w.(next := w.next + 1, live := w.live + {w.next}), w.next)
  }

  /** `delete p`: nothing for the null pointer, otherwise the object dies and the deletion is
      logged. */
  function Delete(w: World, p: Option<ObjectId>): (r: World)
    ensures r.slots == w.slots && r.next == w.next
    ensures p.None? ==> r == w
    ensures p.Some? ==> r.live == w.live - {p.value} && r.deleted == w.deleted + [p.value]
  {
    match p
    case None => w
    case Some(a) => w.(live := w.live - {a}, deleted := w.deleted + [a])
  }

  /** `unique_ptr()`, `unique_ptr(nullptr)` (with `p == None`) and `explicit unique_ptr(T*)`:
      a new `unique_ptr` at `dst` storing `p`. */
  function Construct(w: World, dst: Slot, p: Option<ObjectId>): (r: World)
    requires dst !in w.slots
    ensures dst in r.slots && r.slots[dst].Get() == p
    ensures forall s :: s in w.slots ==> s in r.slots && r.slots[s] == w.slots[s]
    ensures r.slots.Keys == w.slots.Keys + {dst}
    ensures r.next == w.next && r.live == w.live && r.deleted == w.deleted
  {
    w.(slots := w.slots[dst := Ptr(p)])
  }

  /** `unique_ptr(unique_ptr&& ptr)`: the new object takes the source's pointer and the
      source is left null. */
  function MoveConstruct(w: World, dst: Slot, src: Slot): (r: World)
    requires dst !in w.slots && src in w.slots
    ensures dst in r.slots && r.slots[dst] == w.slots[src]
    ensures src in r.slots && !r.slots[src].IsSet()
    ensures r.slots.Keys == w.slots.Keys + {dst}
    ensures forall s :: s in w.slots && s != src ==> r.slots[s] == w.slots[s]
    ensures r.next == w.next && r.live == w.live && r.deleted == w.deleted
  {
    w.(slots := w.slots[dst := w.slots[src]][src := Null])
  }

  /** `operator=(unique_ptr&& ptr)`: unless it is a self-assignment, the target deletes its
      object, takes the source's pointer, and the source is left null. */
  function MoveAssign(w: World, dst: Slot, src: Slot): (r: World)
    requires dst in w.slots && src in w.slots
    ensures r.slots.Keys == w.slots.Keys
    ensures dst == src ==> r == w
    ensures dst != src ==> r.slots[dst] == w.slots[src] && !r.slots[src].IsSet()
    ensures forall s :: s in w.slots && s != src && s != dst ==> r.slots[s] == w.slots[s]
    ensures r.next == w.next
    ensures dst != src && w.slots[dst].IsSet() ==>
      var a := w.slots[dst].p.value;
      r.live == w.live - {a} && r.deleted == w.deleted + [a]
    ensures !w.slots[dst].IsSet() ==> r.live == w.live && r.deleted == w.deleted
  {
    if dst == src then w
    else
      var w1 := Delete(w, w.slots[dst].p);
      w1.(slots := w1.slots[dst := w.slots[src]][src := Null])
  }

  /** `~unique_ptr()`: the owned object is deleted and the `unique_ptr` ceases to exist. */
  function Destroy(w: World, s: Slot): (r: World)
    requires s in w.slots
    ensures r.slots.Keys == w.slots.Keys - {s}
    ensures forall t :: t in r.slots ==> r.slots[t] == w.slots[t]
    ensures r.next == w.next
    ensures w.slots[s].IsSet() ==>
      var a := w.slots[s].p.value;
      r.live == w.live - {a} && r.deleted == w.deleted + [a]
    ensures !w.slots[s].IsSet() ==> r.live == w.live && r.deleted == w.deleted
  {
    Delete(w, w.slots[s].p).(slots := w.slots - {s})
  }

  lemma InitialValid()
    ensures Valid(Initial())
  {
  }

  /** `new` yields an object no `unique_ptr` holds, so it may be adopted. */
  lemma NewKeepsValid(w: World)
    requires Valid(w)
    ensures Valid(New(w).0)
    ensures New(w).1 !in w.live
    ensures Adoptable(New(w).0, Some(New(w).1))
  {
    var (w', a) := New(w);
    forall s | s in w'.slots
      ensures w'.slots[s].p != Some(a)
    {
      assert s in w.slots;
    }
  }

  lemma ConstructKeepsValid(w: World, dst: Slot, p: Option<ObjectId>)
    requires Valid(w) && dst !in w.slots && Adoptable(w, p)
    ensures Valid(Construct(w, dst, p))
  {
  }

  lemma MoveConstructKeepsValid(w: World, dst: Slot, src: Slot)
    requires Valid(w) && dst !in w.slots && src in w.slots
    ensures Valid(MoveConstruct(w, dst, src))
  {
  }

  lemma MoveAssignKeepsValid(w: World, dst: Slot, src: Slot)
    requires Valid(w) && dst in w.slots && src in w.slots
    ensures Valid(MoveAssign(w, dst, src))
  {
    if dst != src && w.slots[dst].IsSet() {
      var a := w.slots[dst].p.value;
      var r := MoveAssign(w, dst, src);
      forall i | 0 <= i < |r.deleted|
        ensures r.deleted[i] < r.next && r.deleted[i] !in r.live
      {
        if i < |w.deleted| {
          assert r.deleted[i] == w.deleted[i];
        }
      }
      forall i, j | 0 <= i < j < |r.deleted|
        ensures r.deleted[i] != r.deleted[j]
      {
        if j == |w.deleted| {
          assert r.deleted[j] == a && r.deleted[i] == w.deleted[i];
        }
      }
    }
  }

  lemma DestroyKeepsValid(w: World, s: Slot)
    requires Valid(w) && s in w.slots
    ensures Valid(Destroy(w, s))
  {
    if w.slots[s].IsSet() {
      var a := w.slots[s].p.value;
      var r := Destroy(w, s);
      forall i | 0 <= i < |r.deleted|
        ensures r.deleted[i] < r.next && r.deleted[i] !in r.live
      {
        if i < |w.deleted| {
          assert r.deleted[i] == w.deleted[i];
        }
      }
      forall i, j | 0 <= i < j < |r.deleted|
        ensures r.deleted[i] != r.deleted[j]
      {
        if j == |w.deleted| {
          assert r.deleted[j] == a && r.deleted[i] == w.deleted[i];
        }
      }
    }
  }

  /** One statement of a program using `unique_ptr`. The copy operations are declared
      `= delete`, so a program using them does not compile. */
  datatype Op =
    | Allocate
    | ConstructFrom(dst: Slot, raw: Option<ObjectId>)
    | MoveConstructFrom(dst: Slot, src: Slot)
    | MoveAssignFrom(dst: Slot, src: Slot)
    | CopyConstructFrom(dst: Slot, src: Slot)
    | CopyAssignFrom(dst: Slot, src: Slot)
    | DestroyAt(s: Slot)

  /** The effect of one statement, or `None` when the statement is rejected. A copy is
      ill-formed, since the copy operations are deleted. The other rejections are broken
      preconditions the compiler does not see: a `unique_ptr` that does not exist (or already
      exists, for a constructor), or a raw pointer that is not a fresh object from `new`
      given to exactly one `unique_ptr`. */
  function Step(w: World, op: Op): Option<World> {
    match op
    case Allocate => Some(New(w).0)
    case ConstructFrom(dst, raw) =>
      if dst !in w.slots && Adoptable(w, raw) then Some(Construct(w, dst, raw)) else None
    case MoveConstructFrom(dst, src) =>
      if dst !in w.slots && src in w.slots then Some(MoveConstruct(w, dst, src)) else None
    case MoveAssignFrom(dst, src) =>
      if dst in w.slots && src in w.slots then Some(MoveAssign(w, dst, src)) else None
    case CopyConstructFrom(_, _) => None
    case CopyAssignFrom(_, _) => None
    case DestroyAt(s) =>
      if s in w.slots then Some(Destroy(w, s)) else None
  }

  /** The effect of a program: its statements in order, stopping at a rejected one. */
  function Run(w: World, ops: seq<Op>): Option<World>
    decreases |ops|
  {
    if |ops| == 0 then Some(w)
    else
      var w' :- Step(w, ops[0]);
      Run(w', ops[1..])
  }

  lemma StepKeepsValid(w: World, op: Op)
    requires Valid(w) && Step(w, op).Some?
    ensures Valid(Step(w, op).value)
  {
    match op
    case Allocate => NewKeepsValid(w);
    case ConstructFrom(dst, raw) => ConstructKeepsValid(w, dst, raw);
    case MoveConstructFrom(dst, src) => MoveConstructKeepsValid(w, dst, src);
    case MoveAssignFrom(dst, src) => MoveAssignKeepsValid(w, dst, src);
    case DestroyAt(s) => DestroyKeepsValid(w, s);
  }

  /** Every program that makes no copy and gives each pointer from `new` to at most one
      `unique_ptr`, starting from a valid world, ends in a valid world. */
  lemma {:induction false} RunKeepsValid(w: World, ops: seq<Op>)
    requires Valid(w) && Run(w, ops).Some?
    ensures Valid(Run(w, ops).value)
    decreases |ops|
  {
    if |ops| > 0 {
      StepKeepsValid(w, ops[0]);
      RunKeepsValid(Step(w, ops[0]).value, ops[1..]);
    }
  }

  /** With copying deleted and moving as defined, after any program that gives each pointer
      from `new` to at most one `unique_ptr`, no two `unique_ptr` objects own the same
      object, every owned object is alive, and no object has been deleted twice. */
  lemma SingleOwnership(ops: seq<Op>, s: Slot, t: Slot)
    requires Run(Initial(), ops).Some?
    ensures var w := Run(Initial(), ops).value;
      && (s in w.slots && t in w.slots && s != t && w.slots[s].IsSet() ==> w.slots[s].p != w.slots[t].p)
      && (s in w.slots && w.slots[s].IsSet() ==> w.slots[s].p.value in w.live)
      && (forall i, j :: 0 <= i < j < |w.deleted| ==> w.deleted[i] != w.deleted[j])
  {
    InitialValid();
    RunKeepsValid(Initial(), ops);
  }

  /** Between two different `unique_ptr` objects, `==` holds only when both are null. */
  lemma DistinctPtrsEqualOnlyWhenNull(w: World, s: Slot, t: Slot)
    requires Valid(w) && s in w.slots && t in w.slots && s != t
    ensures w.slots[s].Equals(w.slots[t]) <==> !w.slots[s].IsSet() && !w.slots[t].IsSet()
    ensures w.slots[s].NotEquals(w.slots[t]) <==> w.slots[s].IsSet() || w.slots[t].IsSet()
  {
  }

  /** The `default constructor` and `move semantics` test cases: a null pointer equals
      another null pointer and is false; after `target = std::move(ptr)`, `ptr` is false and
      `target` holds the gadget. */
  lemma ConstructionExamples()
    ensures Null.Get() == None && Null.Equals(Null) && !Null.IsSet()
    ensures var (w1, a) := New(Initial());
      var w2 := MoveConstruct(Construct(w1, 0, Some(a)), 1, 0);
      !w2.slots[0].IsSet() && w2.slots[1].Get() == Some(a)
  {
  }

  /** Why copying is deleted: a member-wise copy would leave two owners of one object,
      and destroying both would delete it twice. */
  lemma CopyWouldDeleteTwice()
    ensures var (w1, a) := New(Initial());
      var w2 := Construct(w1, 0, Some(a));
      var copied := w2.(slots := w2.slots[1 := w2.slots[0]]);
      !SingleOwner(copied) && Destroy(Destroy(copied, 0), 1).deleted == [a, a]
  {
    var (w1, a) := New(Initial());
    var w2 := Construct(w1, 0, Some(a));
    var copied := w2.(slots := w2.slots[1 := w2.slots[0]]);
    assert copied.slots[0].IsSet() && copied.slots[0].Equals(copied.slots[1]);
  }

  /** `Helpers::Gadget`, with the fields `create_gadget` sets. */
  datatype Gadget = Gadget(id: int, name: string)

  /** The name `create_gadget(name)` gives the gadget with number `id`: `name`, then `#`,
      then the number, which can be read back from it. */
  function GadgetName(name: string, id: int): (r: string)
    ensures |r| > |name| + 1 && r[..|name| + 1] == name + "#"
    ensures Decimal.IsNumeral(r[|name| + 1..]) && Decimal.ParseInt(r[|name| + 1..]) == id
  {
    Decimal.Labelled(name + "#", id)
  }

  /** The naming step of `create_gadget(name)`: the static counter `id_gen` is incremented
      (it must not overflow) and the gadget gets the new value as id and in its name. */
  function NextGadget(idGen: Int32, name: string): (r: (Int32, Gadget))
    requires idGen < INT_MAX
    ensures r.0 == idGen + 1 && r.1.id == r.0
    ensures |r.1.name| > |name| + 1 && r.1.name[..|name| + 1] == name + "#"
    ensures Decimal.IsNumeral(r.1.name[|name| + 1..]) && Decimal.ParseInt(r.1.name[|name| + 1..]) == r.0
    ensures r.1.name == GadgetName(name, r.0)
  {
    var id: Int32 := idGen + 1;
    (id, Gadget(id, GadgetName(name, id)))
  }

  /** The result of `create_gadget`: the new world, the counter, the gadget and its object id. */
  datatype Created = Created(world: World, idGen: Int32, gadget: Gadget, obj: ObjectId)

  /** `create_gadget(name)`: a `new Gadget`, adopted by the returned `unique_ptr`, which is
      constructed directly in the caller's object `ret`. */
  function CreateGadget(w: World, idGen: Int32, ret: Slot, name: string): (r: Created)
    requires idGen < INT_MAX && ret !in w.slots
    ensures r.idGen == idGen + 1 && r.gadget == NextGadget(idGen, name).1
    ensures ret in r.world.slots && r.world.slots[ret].Get() == Some(r.obj)
    ensures w.next <= r.obj < r.world.next
    ensures r.world.live == w.live + {r.obj} && r.world.deleted == w.deleted
    ensures r.world.slots.Keys == w.slots.Keys + {ret}
    ensures forall s :: s in w.slots ==> r.world.slots[s] == w.slots[s]
  {
    var (w1, a) := New(w);
    var (gen, g) := NextGadget(idGen, name);
    Created(Construct(w1, ret, Some(a)), gen, g, a)
  }

  /** The pointer `create_gadget` returns is the only owner of a freshly allocated gadget. */
  lemma CreateGadgetKeepsValid(w: World, idGen: Int32, ret: Slot, name: string)
    requires Valid(w) && idGen < INT_MAX && ret !in w.slots
    ensures Valid(CreateGadget(w, idGen, ret, name).world)
    ensures CreateGadget(w, idGen, ret, name).obj !in w.live
  {
    NewKeepsValid(w);
    ConstructKeepsValid(New(w).0, ret, Some(New(w).1));
  }

  /** Successive `create_gadget` calls, one per name, starting from counter `idGen`. */
  function CreateGadgets(idGen: Int32, names: seq<string>): (gs: seq<Gadget>)
    requires idGen + |names| <= INT_MAX
    ensures |gs| == |names|
    decreases |names|
  {
    if |names| == 0 then []
    else
      var next := NextGadget(idGen, names[0]);
      [next.1] + CreateGadgets(next.0, names[1..])
  }

  /** The i-th of successive `create_gadget` calls (from 0) sees the counter at `idGen + i`,
      so its gadget gets id `idGen + i + 1`. */
  lemma {:induction false} CreateGadgetsClosedForm(idGen: Int32, names: seq<string>, i: nat)
    requires idGen + |names| <= INT_MAX && i < |names|
    ensures CreateGadgets(idGen, names)[i] == NextGadget(idGen + i, names[i]).1
    ensures CreateGadgets(idGen, names)[i].id == idGen + i + 1
    decreases i
  {
    var gs := CreateGadgets(idGen, names);
    var next := NextGadget(idGen, names[0]);
    var rest := CreateGadgets(next.0, names[1..]);
    assert gs == [next.1] + rest;
    if i > 0 {
      CreateGadgetsClosedForm(next.0, names[1..], i - 1);
      var j: nat := i - 1;
      assert gs[i] == rest[j];
      assert next.0 + j == idGen + i && names[1..][j] == names[i];
    }
  }

  /** The number after `#` is exactly the decimal text `std::to_string` gives for the id. */
  lemma GadgetNameText(name: string, id: int)
    ensures GadgetName(name, id) == name + "#" + Decimal.IntToString(id)
    ensures GadgetName(name, id)[|name| + 1..] == Decimal.IntToString(id)
  {
    assert (name + "#" + Decimal.IntToString(id))[|name| + 1..] == Decimal.IntToString(id);
  }

  /** Calls of `create_gadget` with the same name but different counter values give
      different gadget names: the number after `#` tells them apart. */
  lemma GadgetNamesDiffer(name: string, x: int, y: int)
    requires x != y
    ensures GadgetName(name, x) != GadgetName(name, y)
  {
  }

  /** The three `create_gadget("smartwatch")` calls of the test get ids 1, 2 and 3. */
  lemma CreateGadgetExamples()
    ensures var gs := CreateGadgets(0, ["smartwatch", "smartwatch", "smartwatch"]);
      gs[0] == Gadget(1, "smartwatch#1") && gs[1] == Gadget(2, "smartwatch#2")
      && gs[2] == Gadget(3, "smartwatch#3")
  {
  }
}

=== FILE: vectorlike.dfy ===
/** The hand-rolled `Vector` (an `int` buffer with a size) and the value type `X` of the
    operators lesson. The heap buffer is modelled by the sequence of its elements. */
module VectorLike {
  import opened CInt

  datatype Vector = Vector(items: seq<int>) {

    /** `size()`. */
    function Size(): nat {
      |items|
    }
  }

  /** The default constructor: no buffer, size 0. */
  function Default(): (v: Vector)
    ensures v.Size() == 0
  {
    Vector([])
  }

  /** `explicit Vector(size_t size)`: a buffer of `size` elements filled with 0. */
  function OfSize(size: nat): (v: Vector)
    ensures v.Size() == size
    ensures forall i :: 0 <= i < size ==> v.items[i] == 0
  {
    Vector(seq(size, _ => 0))
  }

  /** `Vector(std::initializer_list<int>)`: one element per list entry, copied in order. */
  function FromList(il: seq<int>): (v: Vector)
    ensures v.Size() == |il|
    ensures forall i :: 0 <= i < |il| ==> v.items[i] == il[i]
  {
    Vector(il)
  }

  /** Reading `vec[index]`; an index outside the buffer is undefined behaviour in the source. */
  function At(v: Vector, index: nat): int
    requires index < v.Size()
  {
    v.items[index]
  }

  /** Writing `vec[index] = value` through the returned reference. */
  function Assign(v: Vector, index: nat, value: int): (r: Vector)
    requires index < v.Size()
    ensures r.Size() == v.Size()
    ensures At(r, index) == value
    ensures forall j :: 0 <= j < r.Size() && j != index ==> At(r, j) == At(v, j)
  {
    Vector(v.items[index := value])
  }

  /** `std::equal(first1, last1, first2, last2)`: both ranges end together and agree at
      every step. */
  function RangesEqual(xs: seq<int>, ys: seq<int>): (r: bool)
    ensures r <==> xs == ys
    decreases |xs|
  {
    if |xs| != |ys| then false
    else if |xs| == 0 then true
    else xs[0] == ys[0] && RangesEqual(xs[1..], ys[1..])
  }

  /** `operator==`: same size and equal elements position by position. */
  function Equal(a: Vector, b: Vector): (r: bool)
    ensures r <==> a.Size() == b.Size() && forall i :: 0 <= i < a.Size() ==> a.items[i] == b.items[i]
    ensures r <==> a == b
  {
    RangesEqual(a.items, b.items)
  }

  /** `operator!=`: the negation of `operator==`. */
  function NotEqual(a: Vector, b: Vector): (r: bool)
    ensures r <==> !Equal(a, b)
    ensures r <==> a != b
  {
    !Equal(a, b)
  }

  /** Writing an element and reading it back yields the written value; a second write to
      the same index replaces the first. */
  lemma AssignThenAt(v: Vector, index: nat, value: int, other: int)
    requires index < v.Size()
    ensures At(Assign(v, index, value), index) == value
    ensures Assign(Assign(v, index, other), index, value) == Assign(v, index, value)
  {
  }

  /** The checks of the `Vector` test case: `Vector(10)` has ten zeroes while `Vector{10}`
      has the single element 10, and list-built vectors compare by contents. */
  lemma ConstructionExamples()
    ensures Default().Size() == 0
    ensures OfSize(10).Size() == 10 && FromList([10]).Size() == 1
    ensures FromList([1, 2, 3]).Size() == 3
    ensures Equal(FromList([1, 2, 3]), FromList([1, 2, 3]))
    ensures NotEqual(FromList([1, 2, 3]), FromList([1, 2, 3, 4]))
  {
  }

  /** The `Vector - indexing` test case: three writes into `Vector(3)`, then three reads. */
  lemma IndexingExample()
    ensures var v := Assign(Assign(Assign(OfSize(3), 0, 1), 1, 2), 2, 3);
            At(v, 0) == 1 && At(v, 1) == 2 && At(v, 2) == 3
  {
  }

  /** `struct X`; its converting constructor `X(int)` is implicit, so an `int` operand of
      `+` or `==` becomes an `X`. */
  datatype X = X(value: Int32)

  /** `operator+(const X&, const X&)`; a sum outside the `int` range would be signed overflow. */
  function Plus(a: X, b: X): (r: X)
    requires InRange(a.value + b.value)
    ensures r.value == a.value + b.value
  {
    X(a.value + b.value)
  }

  /** `operator==(const X&, const X&)`: equal values. */
  function Same(a: X, b: X): (r: bool)
    ensures r <==> a == b
  {
    a.value == b.value
  }

  /** `X` addition commutes. */
  lemma PlusCommutes(a: X, b: X)
    requires InRange(a.value + b.value)
    ensures Same(Plus(a, b), Plus(b, a))
  {
  }

  /** The checks of the `operators` test case; `x1 + 10` and `10 + x2` convert the `int`
      operand to `X` first, and the `int` on the right of `==` too. */
  lemma OperatorExamples()
    ensures Same(Plus(X(10), X(20)), X(30))
    ensures Same(Plus(X(10), X(10)), X(20))
  {
  }
}

=== FILE: wrappers.dfy ===
/** The optional value used for null pointers and for statements a program may not perform. */
module Wrappers {

  /** Either nothing or one value. A null pointer is `None`; a rejected step is `None`. */
  datatype Option<+T> = None | Some(value: T) {

    /** With `:-`, `None` stops the computation. */
    predicate IsFailure() {
      None?
    }

    /** A stopped computation stays `None`, whatever it would have produced. */
    function PropagateFailure<U>(): Option<U>
      requires None?
    {
      None
    }

    /** The value `:-` binds when there is one. */
    function Extract(): T
      requires Some?
    {
      value
    }
  }
}
